=== FILE: README.md ===
# Kanban board ordering — a Dafny model

This project models the part of the project-hub Kanban application that has real
invariants: how lists and tasks are ordered on a board, how a drag-and-drop move
rearranges them on the client, and how the server places, moves, deletes and
authorises rows in its store. It also models the bearer-token middleware. The route
files put it in front of the five project handlers, `createList` and `createTask`
(`server/routes/*.routes.js`). No route registers `updateTaskPosition` or `deleteTask`
(`server/routes/tasks.routes.js:8`), and `server/index.js` mounts no router.

* **Client board** (`Board`, on top of the sequence helpers in `Seqs`). The page state is
  a sequence of lists, each holding a sequence of tasks. The model covers the sort by
  `position` after a fetch, the drag-end handler, and the state updates after a task or
  list is created or a task is deleted. The drag-end handler covers the same-list
  reorder and the cross-list move, both built from `splice` remove-at-index and
  insert-at-index. All of these are pure functions.
* **Server store** (`Store`). Three maps (projects, lists, tasks) keyed by row id. The
  rows carry `user_id`, `project_id`, `list_id` and `position`. `Store` also holds the
  ownership-chain lookups and the "highest sibling position + 1, or 0" rule.
* **Handlers** (`Tasks`, `Lists`, `Projects`). Each handler is a pure function from a
  store and a request to a status code and a new store. A read handler returns a status
  and the data instead.
* **Auth middleware** (`Auth`). The token is the second space-separated field of the
  `Authorization` header. The outcome is 401, 403, 500, or a hand-over to the next
  handler. The identity provider is a function parameter.
* **Scenarios**. Two end-to-end walks through client and server together.

Modelling choices:

* Ids are strings. The id the store gives a new row is a parameter (`newId`). If that id
  is already taken, the insert fails.
* Foreign keys are enforced. A write that names a missing parent fails, and the handler
  answers with its error status.
* Deleting a project also deletes its lists and their tasks. The schema is not part of
  this model, so this cascade is an assumption.
* A join whose parent row is missing (`listData.projects` is `null`) makes the handler
  read a field of `null`. That throws, and the handler answers 500. In a `Consistent`
  store this never happens.
* `createTask` ignores the `projectId` route parameter. Only the list's own project
  decides ownership, so the model takes no project id.
* `createProject` never passes the requester's id. The owner comes from the store's
  `auth.uid()` default, which appears as the parameter `sessionUid`.

The 404 branches of `updateProject` and `getProjectById` are never taken. For a
project that is missing or not owned, `.single()` reports "no rows" as an error. The
handler throws that error (`server/controllers/projects.controller.js:72`, `:120`) and
answers 500. The model answers 500 in both cases.

## Model

| member | source | states |
|---|---|---|
| Seqs.RemoveAt | client/src/pages/ProjectDetailPage.jsx:103 | `splice(i, 1)` keeps the elements before `i`, shifts the later ones down by one, and removes exactly one copy of `s[i]` from the multiset |
| Seqs.InsertAt | client/src/pages/ProjectDetailPage.jsx:104 | `splice(i, 0, x)` puts `x` at `i`, keeps the prefix, shifts the suffix up by one, and adds exactly `x` to the multiset |
| Seqs.RemoveAfterInsert | client/src/pages/ProjectDetailPage.jsx:103-104 | removing at the index just inserted at gives back the original sequence |
| Seqs.InsertAfterRemove | client/src/pages/ProjectDetailPage.jsx:103-104 | putting a removed element back at its index gives back the original sequence |
| Seqs.IndexOfKey | client/src/pages/ProjectDetailPage.jsx:97-99 | `find`/`findIndex` by id returns the first index with that id, or nothing when no element has it |
| Seqs.SortBy | client/src/pages/ProjectDetailPage.jsx:79-81 | sorting by `position` yields an ascending permutation of the input |
| Seqs.SortByStable | client/src/pages/ProjectDetailPage.jsx:79-81 | elements with equal positions keep their original relative order |
| Seqs.SortBySorted | client/src/pages/ProjectDetailPage.jsx:79-81 | re-sorting an already sorted sequence changes nothing |
| Seqs.Filter | client/src/pages/ProjectDetailPage.jsx:166 | `filter` keeps only elements passing the test, keeps every element that passes, and adds none; counts and order are in the next two rows |
| Seqs.FilterCount | client/src/pages/ProjectDetailPage.jsx:166 | every element that passes the test is kept as many times as it occurs, and every element that fails is dropped entirely |
| Seqs.FilterAppend | client/src/pages/ProjectDetailPage.jsx:166 | filtering a concatenation is the concatenation of the filtered parts, so the kept elements stay in their original order |
| Seqs.FilterKeepsSorted | client/src/pages/ProjectDetailPage.jsx:166 | a filtered sorted sequence is still sorted |
| Board.NormalizeAll | client/src/pages/ProjectDetailPage.jsx:80-82 | the `forEach` normalizes every fetched list in place: same number of lists, each the normalization of the list at its index |
| Board.Normalize | client/src/pages/ProjectDetailPage.jsx:80-82 | an absent task array becomes empty; otherwise the tasks are a position-sorted permutation of the fetched ones; the list's other fields are kept |
| Board.LoadBoard | client/src/pages/ProjectDetailPage.jsx:79-83 | after loading, the lists are ascending by position, each list's tasks are ascending by position, and the board holds exactly the fetched lists, normalized |
| Board.DragEnd | client/src/pages/ProjectDetailPage.jsx:93-126 | no destination, or a drop on the source slot, leaves the board unchanged and sends nothing; otherwise the request is (task id, destination list id, destination index), every list keeps its header and place, and every list other than start and finish is untouched |
| Board.DragWithinList | client/src/pages/ProjectDetailPage.jsx:101-108 | a same-list move keeps the list's length and multiset, puts the dragged task at the destination index, and leaves the other tasks in their old relative order |
| Board.DragAcrossLists | client/src/pages/ProjectDetailPage.jsx:109-120 | a cross-list move removes exactly the task at the source index from the start list and inserts it at the destination index of the finish list |
| Board.DragPreservesTasks | client/src/pages/ProjectDetailPage.jsx:109-120 | any drop keeps the board's multiset of tasks and so its task count |
| Board.DragUndo | client/src/pages/ProjectDetailPage.jsx:93-121 | if the dragged id is unique on the lists involved, the reverse drop is valid on the new board and restores the old board exactly |
| Board.AppendTask | client/src/pages/ProjectDetailPage.jsx:144-154 | a created task is appended at the end of each list with the matching id; other lists are unchanged |
| Board.AppendList | client/src/pages/ProjectDetailPage.jsx:135 | a created list is appended after all lists, with no tasks |
| Board.RemoveTask | client/src/pages/ProjectDetailPage.jsx:162-170 | after a delete, no list holds the id; every other task stays in its list; list headers are kept |
| Board.RemoveTaskCount | client/src/pages/ProjectDetailPage.jsx:166 | each surviving task occurs in its list as often as before; every task with the deleted id is gone |
| Board.RemoveTaskKeepsOrder | client/src/pages/ProjectDetailPage.jsx:166 | for every cut of a list, the survivors before the cut come first, then the survivors after it, so the survivors keep their relative order (for example after a drag) |
| Board.RemoveTaskKeepsSorted | client/src/pages/ProjectDetailPage.jsx:166 | deleting keeps a position-sorted list sorted, gaps included; this is the case right after a load |
| Board.RemoveTaskIdempotent | client/src/pages/ProjectDetailPage.jsx:162-170 | deleting the same id twice leaves the board as deleting it once |
| Board.DeleteUndoesCreate | client/src/pages/ProjectDetailPage.jsx:144-170 | deleting a task just appended under a fresh id restores the board |
| Board.AppendTaskKeepsSorted | client/src/pages/ProjectDetailPage.jsx:148 | appending a task positioned above its list's tasks keeps the list sorted |
| Board.AppendListKeepsSorted | client/src/pages/ProjectDetailPage.jsx:135 | appending a list positioned above all lists keeps the board sorted |
| Store.ListChain | server/controllers/tasks.controller.js:15-26 | a list lookup is Missing exactly when the list is not stored; it yields an owner exactly when the list's project exists, and then the owner is that project's user |
| Store.TaskChain | server/controllers/tasks.controller.js:64-72 | a task lookup is Missing exactly when the task is not stored; it yields an owner exactly when the task's list lookup does, and then the same owner |
| Store.ConsistentChains | server/controllers/tasks.controller.js:24 | in a store with intact foreign keys, no ownership lookup hits a missing parent |
| Store.Present | server/controllers/tasks.controller.js:8-10 | the `!name` guard shared by all create and rename handlers: an absent name and the empty string are rejected, and every other string is accepted |
| Store.TaskPositions | server/controllers/tasks.controller.js:29-35 | the sibling query of a new task covers exactly the positions of the tasks in that list; it returns no rows exactly when the list has no task |
| Store.ListPositions | server/controllers/lists.controller.js:25-34 | the sibling query of a new list covers exactly the positions of the lists in that project; it returns no rows exactly when the project has no list |
| Store.MaxOf | server/controllers/tasks.controller.js:29-35 | the highest position is one of the positions and bounds all of them |
| Store.NextPosition | server/controllers/tasks.controller.js:37-39 | the new position is above every sibling position; it is 0 without siblings and otherwise one more than a sibling's position |
| Tasks.CreateTask | server/controllers/tasks.controller.js:3-55 | a missing name gives 400; a missing or foreign list gives 404; 201 exactly when the name is present, the list is the requester's and the id is free; only then is one row added, with the given name and list id; every other outcome leaves the store unchanged |
| Tasks.CreateTaskPosition | server/controllers/tasks.controller.js:28-39 | a new task's position is above all tasks of its list; it is 0 for an empty list and otherwise one more than the highest |
| Tasks.UpdateTaskPosition | server/controllers/tasks.controller.js:57-89 | 200 exactly when the task's current list is the requester's and the destination list exists; 404 for a missing or foreign task, with no write; on success only that task's list id and position change |
| Tasks.UpdateTaskPositionIdempotent | server/controllers/tasks.controller.js:75-80 | applying the same move twice gives the same store as applying it once |
| Tasks.UpdateIgnoresDestinationOwner | server/controllers/tasks.controller.js:64-80 | an owner of a task can move it into any existing list; the task then belongs to that list's owner |
| Tasks.UpdateMayDuplicatePositions | server/controllers/tasks.controller.js:75-78 | siblings are not re-ranked, so a move can leave two tasks of a list with the same position |
| Tasks.DeleteTask | server/controllers/tasks.controller.js:91-121 | 204 exactly when the task's list is the requester's, and then exactly that task is removed and no other row changes; 404 for a missing or foreign task, with nothing deleted |
| Tasks.TaskHandlersKeepConsistency | server/controllers/tasks.controller.js:3-121 | the task handlers keep the foreign keys intact; on such a store a delete never answers 500, and a move answers 500 only for a missing destination list |
| Lists.CreateList | server/controllers/lists.controller.js:4-51 | a missing name gives 400; no project matching both id and requester gives 404; 201 exactly when the name is present, the project is the requester's and the id is free; only then is one list added, with the given name and project |
| Lists.CreateListPosition | server/controllers/lists.controller.js:26-38 | a new list's position is above all lists of its project; it is 0 for the first list and otherwise one more than the highest |
| Lists.ListPositionScoped | server/controllers/lists.controller.js:29 | lists of other projects do not change a project's positions |
| Lists.SuccessiveListsIncrease | server/controllers/lists.controller.js:38-47 | two successive creates in one project get consecutive positions |
| Lists.CreateListKeepsConsistency | server/controllers/lists.controller.js:40-44 | creating a list keeps the foreign keys intact |
| Projects.CreateProject | server/controllers/projects.controller.js:4-33 | a missing name or a failed insert gives 400 with no change; otherwise one project is added, with the given name and the store session's user as owner |
| Projects.GetProjects | server/controllers/projects.controller.js:35-53 | the answer holds exactly the requester's projects, unchanged |
| Projects.CreatedProjectIsListed | server/controllers/projects.controller.js:17-21 | a project created while the store session is the requester's appears in that requester's project list |
| Projects.UpdateProject | server/controllers/projects.controller.js:55-80 | a missing name gives 400; 200 exactly when the project is the requester's, and then only its name changes; otherwise 500 with no write, never 404 |
| Projects.DeleteProject | server/controllers/projects.controller.js:82-101 | always 204; nothing changes unless the project is the requester's; then that project goes with its lists and their tasks, and all other rows stay |
| Projects.DeleteProjectKeepsConsistency | server/controllers/projects.controller.js:87-90 | deleting a project keeps the foreign keys intact |
| Projects.UpdateProjectKeepsConsistency | server/controllers/projects.controller.js:65-70 | renaming a project keeps the foreign keys intact |
| Projects.GetProjectById | server/controllers/projects.controller.js:103-127 | 200 exactly when the project is the requester's, with its name, exactly its lists (each with its stored name and position) and, under each list, exactly that list's tasks as stored rows (name, list, position); otherwise 500 with no data, never 404 |
| Projects.FetchedIffListed | server/controllers/projects.controller.js:108-123 | fetching one project succeeds exactly for the projects in the requester's listing |
| Projects.RenameIsFetched | server/controllers/projects.controller.js:65-75 | after a successful rename, the next fetch of that project succeeds and shows the new name |
| Projects.DeletedProjectIsGone | server/controllers/projects.controller.js:87-96 | after a delete by the requester, fetching that id answers 500 and the listing no longer shows it |
| Auth.IndexOf | server/middleware/auth.middleware.js:7 | the first occurrence of a character, or nothing when it does not occur |
| Auth.Split | server/middleware/auth.middleware.js:7 | `split(' ')` yields at least one field, no field holds a space, and joining the fields with spaces gives back the header |
| Auth.SplitJoin | server/middleware/auth.middleware.js:7 | splitting a join of space-free fields gives back exactly those fields |
| Auth.Token | server/middleware/auth.middleware.js:7 | no header gives no token; the empty header is itself the token; any other header gives a token exactly when it holds a space, and then the token is the space-free run right after the first space |
| Auth.TokenOfHeader | server/middleware/auth.middleware.js:7 | a header "scheme token ..." yields the token whatever the scheme word is, so "Foo x" yields "x" |
| Auth.NoSpaceNoToken | server/middleware/auth.middleware.js:7-10 | a non-empty header with no space yields no token |
| Auth.Authenticate | server/middleware/auth.middleware.js:4-30 | 401 exactly when there is no token; 403 when the provider reports an error or no user; 500 when it throws; otherwise `next` runs once with the verified user |
| Auth.EmptyTokenIsVerified | server/middleware/auth.middleware.js:7-9 | "Bearer " yields the empty token, which goes to verification instead of a 401 |
| Scenarios.MoveAcrossScenario | client/src/pages/ProjectDetailPage.jsx:109-125 | the drop of t2 from index 1 of [t1, t2, t3] onto index 0 of an empty list is valid; it shows [t1, t3] and [t2] and sends (t2, b, 0), which the server stores as t2 in list b at position 0 |
| Scenarios.DeleteThenReloadScenario | client/src/pages/ProjectDetailPage.jsx:162-170 | deleting t1 from [t1, t2, t3] shows [t2, t3]; the server answers 204 and keeps positions 1 and 2 without re-ranking; the project fetch of that store returns list a with t2 and t3 and list b empty; loading those rows, delivered as [t3, t2], shows [t2, t3] again |

## Left out

- Network, asynchronous timing and the ordering of in-flight requests: the client transitions are applied as pure functions. A move applies before its request. Create and delete apply after their request succeeds. A failed move request is only logged, so the model has no transition for the response.
- Last-write-wins races between concurrent requests: the model handles one request at a time.
- `window.confirm`, React rendering, hooks, routing, `localStorage` and the login/dashboard pages: these are UI plumbing with no ordering logic.
- Store failures other than the modelled ones: the modelled failures are "no rows", a taken id, a missing foreign-key parent and a join to a missing row. Network or database faults would also give the handlers' 500/400 answers and are not modelled.
- `getProjects` answers 400 on a store error: store errors are not modelled, so it always answers 200.
- Row-level security, `created_at` timestamps and id generation: ids are parameters, and the store is plain maps.
- Board.DragEnd: JavaScript `splice` turns a destination index past the end into an append (`client/src/pages/ProjectDetailPage.jsx:104`, `:114`). `Board.DropFits` requires an in-range index, which the drag library always supplies, so that append case is not modelled.
- Board.DragEnd: requires the dragged task to be the first one with its id in the start list, sitting at the source index. Removal and insertion only agree under this condition. It holds whenever task ids are distinct, as primary keys make them.
- Non-string request values (numbers, booleans, a missing `list_id` or `position` in a move body): names are optional strings and positions are integers.
- Positions that are `null` (which Postgres sorts first in descending order) or outside the database's integer range: positions are unbounded integers.
- The identity provider's token check is a function parameter of `Auth.Authenticate`, and header values other than a single string are not modelled.
- `server/controllers/auth.controller.js`: it only checks that fields are present and forwards to the identity provider.
- `server/lists.controller.js`: a stale duplicate of `createList` that no route uses.
- Routing and reachability: the model treats every modelled handler as reachable behind the authentication middleware. In the source, no route registers `updateTaskPosition` or `deleteTask` (`server/routes/tasks.routes.js:8`), and `server/index.js` mounts none of the routers. The move and delete requests the client sends would therefore find no handler.
- `server/supabaseClient.js`: only the store connection, which the model replaces with plain maps.
- `client/src/services/api.js`: it exports only `login` (`client/src/services/api.js:13`). The five request functions that `client/src/pages/ProjectDetailPage.jsx:3` imports from it are not defined there. The model treats those client calls as abstract requests: `Board.MoveRequest` for the move, and the handlers' own inputs for the fetch, create and delete.

=== FILE: auth.dfy ===
/**
 The authentication middleware: take the second space-separated field of the
 `Authorization` header as the token, have the identity provider verify it, and
 either answer (401, 403, 500) or hand the verified user to the next handler.
 */
module Auth {
  import opened Wrappers
  import opened Ids

  /** Index of the first `c` in `s`, if any. */
  function IndexOf(s: string, c: char): (r: Option<nat>)
    ensures r.Some? ==> r.value < |s| && s[r.value] == c && c !in s[..r.value]
    ensures r.None? ==> c !in s
  {
    if |s| == 0 then None
    else if s[0] == c then Some(0)
    else match IndexOf(s[1..], c)
      case None => None
      case Some(i) =>
        assert s[..i + 1] == [s[0]] + s[1..][..i];
        Some(i + 1)
  }

  /** The fields joined back with the separator between them. */
  function Join(fields: seq<string>, sep: char): string
    requires |fields| >= 1
  {
    if |fields| == 1 then fields[0] else fields[0] + [sep] + Join(fields[1..], sep)
  }

  /** `s.split(sep)` for a one-character separator: the fields between separators, empty ones included. */
  function Split(s: string, sep: char): (fields: seq<string>)
    ensures |fields| >= 1
    ensures forall i :: 0 <= i < |fields| ==> sep !in fields[i]
    ensures Join(fields, sep) == s
    decreases |s|
  {
    match IndexOf(s, sep)
    case None => [s]
    case Some(i) =>
      var rest := Split(s[i + 1..], sep);
      assert s == s[..i] + [sep] + s[i + 1..];
      assert ([s[..i]] + rest)[1..] == rest;
      [s[..i]] + rest
  }

  lemma IndexOfJoin(a: string, sep: char, b: string)
    requires sep !in a
    ensures IndexOf(a + [sep] + b, sep) == Some(|a|)
  {
    var s := a + [sep] + b;
    assert s[..|a|] == a;
    assert s[|a|] == sep;
    assert forall k :: 0 <= k < |a| ==> s[k] == a[k] && s[k] in a;
    assert forall k :: |a| < k <= |s| ==> s[|a|] in s[..k];
  }

  /** Splitting undoes joining: separator-free fields are recovered exactly. */
  lemma {:induction false} SplitJoin(fields: seq<string>, sep: char)
    requires |fields| >= 1
    requires forall i :: 0 <= i < |fields| ==> sep !in fields[i]
    ensures Split(Join(fields, sep), sep) == fields
    decreases |fields|
  {
    if |fields| > 1 {
      var rest := Join(fields[1..], sep);
      var s := fields[0] + [sep] + rest;
      IndexOfJoin(fields[0], sep, rest);
      assert s[..|fields[0]|] == fields[0];
      assert s[|fields[0]| + 1..] == rest;
      SplitJoin(fields[1..], sep);
      assert fields == [fields[0]] + fields[1..];
    }
  }

  /**
   `authHeader && authHeader.split(' ')[1]`: no header gives no token; the empty
   header is falsy and is itself the value; otherwise the second field, or nothing
   when the header holds no space. The scheme word is never looked at.
   */
  function Token(header: Option<string>): (r: Option<string>)
    ensures header.None? ==> r.None?
    ensures header == Some("") ==> r == Some("")
    ensures header.Some? && header.value != "" ==> (r.Some? <==> ' ' in header.value)
    ensures header.Some? && header.value != "" && r.Some? ==>
              var h := header.value;
              var i := IndexOf(h, ' ').value;
              && ' ' !in r.value
              && r.value <= h[i + 1..]
              && (i + 1 + |r.value| == |h| || h[i + 1 + |r.value|] == ' ')
  {
    match header
    case None => None
    case Some(h) =>
      if h == "" then Some("")
      else
        var fields := Split(h, ' ');
        if |fields| >= 2 then Some(fields[1]) else None
  }

  /**
   A header built as `scheme + " " + token + rest` yields `token`, whatever the scheme,
   when neither holds a space and `rest` is empty or starts with one.
   */
  lemma TokenOfHeader(scheme: string, token: string, rest: string)
    requires ' ' !in scheme && ' ' !in token
    requires rest == [] || rest[0] == ' '
    ensures Token(Some(scheme + " " + token + rest)) == Some(token)
  {
    var h := scheme + " " + token + rest;
    var more: seq<string> := if rest == [] then [] else Split(rest[1..], ' ');
    var fields := [scheme, token] + more;
    assert fields[1..] == [token] + more;
    if rest == [] {
      assert Join(fields[1..], ' ') == token;
    } else {
      assert ([token] + more)[1..] == more;
      assert Join(fields[1..], ' ') == token + [' '] + rest[1..];
      assert rest == [' '] + rest[1..];
    }
    assert Join(fields, ' ') == h;
    SplitJoin(fields, ' ');
  }

  /** A header with no space yields no token. */
  lemma NoSpaceNoToken(h: string)
    requires h != "" && ' ' !in h
    ensures Token(Some(h)) == None
  {
  }

  /** What the identity provider reports for a token. */
  datatype Verification =
    | Verified(user: UserId)  // a user came back
    | Rejected                // the provider returned an error
    | NoUser                  // neither an error nor a user
    | Threw                   // the call itself threw

  /** Either a response is sent with this status, or `next` runs once with `req.user` set. */
  datatype AuthOutcome = Respond(status: int) | Next(user: UserId)

  /**
   `authenticateToken`: 401 without a token; otherwise the provider's verdict decides
   between 403 (error or no user), 500 (a throw) and passing the user on.
   */
  function Authenticate(header: Option<string>, verify: string -> Verification): (o: AuthOutcome)
    ensures header.None? ==> o == Respond(401)
    ensures o == Respond(401) <==> Token(header).None?
    ensures o.Next? <==> Token(header).Some? && verify(Token(header).value).Verified?
    ensures o.Next? ==> o.user == verify(Token(header).value).user
    ensures o == Respond(403) <==>
              Token(header).Some? && (verify(Token(header).value).Rejected? || verify(Token(header).value).NoUser?)
    ensures o == Respond(500) <==> Token(header).Some? && verify(Token(header).value).Threw?
  {
    match Token(header)
    case None => Respond(401)
    case Some(token) =>
      match verify(token)
      case Verified(u) => Next(u)
      case Rejected => Respond(403)
      case NoUser => Respond(403)
      case Threw => Respond(500)
  }

  /** `"Bearer "` has an empty second field, which is a token: it goes to the provider instead of getting 401. */
  lemma EmptyTokenIsVerified(verify: string -> Verification)
    ensures Token(Some("Bearer ")) == Some("")
    ensures Authenticate(Some("Bearer "), verify) != Respond(401)
  {
    TokenOfHeader("Bearer", "", "");
  }
}

=== FILE: board.dfy ===
/**
 The client's board state on the project page: the lists of one project, each holding
 its tasks, and the pure transitions the page applies to it — the sort after loading,
 the drag-and-drop move, appending a created task or list, and removing a deleted task.
 */
module Board {
  import opened Wrappers
  import opened Seqs
  import opened Ids

  datatype Task = Task(id: Id, name: string, listId: Id, position: int)

  datatype TaskList = TaskList(id: Id, name: string, projectId: Id, position: int, tasks: seq<Task>)

  /** A list as the project fetch delivers it: its `tasks` array may be absent. */
  datatype FetchedList = FetchedList(id: Id, name: string, projectId: Id, position: int, tasks: Option<seq<Task>>)

  /** The project's lists in display order. */
  type Board = seq<TaskList>

  function TaskId(t: Task): Id { t.id }
  function TaskPosition(t: Task): int { t.position }
  function ListId(l: TaskList): Id { l.id }
  function ListPosition(l: TaskList): int { l.position }
  function FetchedPosition(l: FetchedList): int { l.position }

  /** Everything about a list except its tasks is the same in `a` and `b`. */
  predicate SameHeader(a: TaskList, b: TaskList) {
    a.id == b.id && a.name == b.name && a.projectId == b.projectId && a.position == b.position
  }

  /** All tasks of the board, list after list. */
  function AllTasks(b: Board): seq<Task> {
    if |b| == 0 then [] else b[0].tasks + AllTasks(b[1..])
  }

  function TaskCount(b: Board): nat {
    |AllTasks(b)|
  }

  /** Replacing one list changes the board's tasks by exactly that list's tasks. */
  lemma {:induction false} AllTasksUpdate(b: Board, i: nat, l: TaskList)
    requires i < |b|
    ensures multiset(AllTasks(b[i := l])) + multiset(b[i].tasks)
         == multiset(AllTasks(b)) + multiset(l.tasks)
  {
    if i == 0 {
      assert b[i := l][1..] == b[1..];
    } else {
      assert b[i := l][1..] == b[1..][i - 1 := l];
      assert AllTasks(b[i := l]) == b[0].tasks + AllTasks(b[1..][i - 1 := l]);
      assert AllTasks(b) == b[0].tasks + AllTasks(b[1..]);
      assert b[1..][i - 1] == b[i];
      AllTasksUpdate(b[1..], i - 1, l);
      var head, rest, rest' := multiset(b[0].tasks), multiset(AllTasks(b[1..])), multiset(AllTasks(b[1..][i - 1 := l]));
      assert multiset(AllTasks(b[i := l])) == head + rest';
      assert multiset(AllTasks(b)) == head + rest;
      assert rest' + multiset(b[i].tasks) == rest + multiset(l.tasks);
      assert (head + rest') + multiset(b[i].tasks) == head + (rest' + multiset(b[i].tasks));
    }
  }

  // ---------------------------------------------------------------------------
  // Loading

  /** One fetched list made ready for display: a missing task array becomes empty, tasks sorted by position. */
  function Normalize(l: FetchedList): (r: TaskList)
    ensures r.id == l.id && r.name == l.name && r.projectId == l.projectId && r.position == l.position
    ensures l.tasks.None? ==> r.tasks == []
    ensures l.tasks.Some? ==> multiset(r.tasks) == multiset(l.tasks.value)
    ensures SortedBy(r.tasks, TaskPosition)
  {
    TaskList(l.id, l.name, l.projectId, l.position,
             match l.tasks
             case None => []
             case Some(ts) => SortBy(ts, TaskPosition))
  }

  function NormalizeAll(ls: seq<FetchedList>): (r: Board)
    ensures |r| == |ls|
    ensures forall i :: 0 <= i < |ls| ==> r[i] == Normalize(ls[i])
  {
    Map(ls, Normalize)
  }

  /** Normalizing keeps list positions, so a sequence sorted by position stays sorted. */
  lemma NormalizeAllSorted(ls: seq<FetchedList>)
    requires SortedBy(ls, FetchedPosition)
    ensures SortedBy(NormalizeAll(ls), ListPosition)
  {
  }

  /**
   The board as shown after a fetch: lists sorted by position, then each list's
   tasks sorted by position (an absent array becoming empty). The board holds
   exactly the fetched lists, each normalized.
   */
  function LoadBoard(fetched: seq<FetchedList>): (b: Board)
    ensures |b| == |fetched|
    ensures SortedBy(b, ListPosition)
    ensures forall i :: 0 <= i < |b| ==> SortedBy(b[i].tasks, TaskPosition)
    ensures multiset(b) == multiset(NormalizeAll(fetched))
  {
    var sorted := SortBy(fetched, FetchedPosition);
    NormalizeAllSorted(sorted);
    MapPermutation(sorted, fetched, Normalize);
    NormalizeAll(sorted)
  }

  // ---------------------------------------------------------------------------
  // Drag and drop

  datatype Location = Location(droppableId: Id, index: nat)

  /** What the drag library reports when a drag ends; `destination` is absent when dropped outside any list. */
  datatype DropResult = DropResult(draggableId: Id, source: Location, destination: Option<Location>)

  /** The persistence request sent after a move: task id, destination list id, destination array index. */
  datatype MoveRequest = MoveRequest(taskId: Id, listId: Id, position: int)

  datatype DragOutcome = DragOutcome(board: Board, request: Option<MoveRequest>)

  /** The drop lands somewhere other than where it started. */
  predicate Moves(d: DropResult) {
    && d.destination.Some?
    && !(d.destination.value.droppableId == d.source.droppableId && d.destination.value.index == d.source.index)
  }

  /**
   What the drag library guarantees about a moving drop: both lists are on the board,
   the dragged task is the first one with its id in the start list and sits at the
   source index, and the destination index is within the list it is inserted into.
   */
  predicate DropFits(b: Board, d: DropResult) {
    Moves(d) ==>
      var si := IndexOfKey(b, ListId, d.source.droppableId);
      var fi := IndexOfKey(b, ListId, d.destination.value.droppableId);
      && si.Some? && fi.Some?
      && IndexOfKey(b[si.value].tasks, TaskId, d.draggableId) == Some(d.source.index)
      && d.destination.value.index <= |b[fi.value].tasks| - (if si == fi then 1 else 0)
  }

  /** Index of the start list (`project.lists.find` by the source droppable id). */
  function SourceIndex(b: Board, d: DropResult): (i: nat)
    requires Moves(d) && DropFits(b, d)
    ensures i < |b| && b[i].id == d.source.droppableId
  {
    IndexOfKey(b, ListId, d.source.droppableId).value
  }

  /** Index of the finish list (`project.lists.find` by the destination droppable id). */
  function DestIndex(b: Board, d: DropResult): (i: nat)
    requires Moves(d) && DropFits(b, d)
    ensures i < |b| && b[i].id == d.destination.value.droppableId
  {
    IndexOfKey(b, ListId, d.destination.value.droppableId).value
  }

  /**
   The drag-end handler. A drop outside any list, or back onto its own slot, changes
   nothing and sends nothing. Otherwise the task is spliced out of the start list at
   the source index and spliced into the finish list at the destination index (one
   list when both are the same), and a request carrying the task id, the destination
   list id and the destination index is issued. The new board is applied before the
   request and is kept whatever the request's outcome (a failure is only logged).
   */
  function DragEnd(b: Board, d: DropResult): (o: DragOutcome)
    requires DropFits(b, d)
    ensures !Moves(d) ==> o == DragOutcome(b, None)
    ensures Moves(d) ==> o.request == Some(MoveRequest(d.draggableId, d.destination.value.droppableId, d.destination.value.index))
    ensures |o.board| == |b|
    ensures forall i :: 0 <= i < |b| ==> SameHeader(o.board[i], b[i])
    ensures Moves(d) ==> forall i :: 0 <= i < |b| && i != SourceIndex(b, d) && i != DestIndex(b, d) ==> o.board[i] == b[i]
  {
    if !Moves(d) then DragOutcome(b, None)
    else
      var dest := d.destination.value;
      var si := IndexOfKey(b, ListId, d.source.droppableId).value;
      var fi := IndexOfKey(b, ListId, dest.droppableId).value;
      var start := b[si];
      var task := start.tasks[IndexOfKey(start.tasks, TaskId, d.draggableId).value];
      var board :=
        if si == fi then
          b[si := start.(tasks := InsertAt(RemoveAt(start.tasks, d.source.index), dest.index, task))]
        else
          b[si := start.(tasks := RemoveAt(start.tasks, d.source.index))]
           [fi := b[fi].(tasks := InsertAt(b[fi].tasks, dest.index, task))];
      DragOutcome(board, Some(MoveRequest(d.draggableId, dest.droppableId, dest.index)))
  }

  /**
   A reorder within one list: the list keeps its length and its tasks (a permutation),
   the dragged task now sits at the destination index, and with it taken out the
   others are in the same relative order as before.
   */
  lemma DragWithinList(b: Board, d: DropResult)
    requires DropFits(b, d) && Moves(d) && SourceIndex(b, d) == DestIndex(b, d)
    ensures var before := b[SourceIndex(b, d)].tasks;
            var after := DragEnd(b, d).board[SourceIndex(b, d)].tasks;
            && |after| == |before|
            && multiset(after) == multiset(before)
            && after[d.destination.value.index] == before[d.source.index]
            && RemoveAt(after, d.destination.value.index) == RemoveAt(before, d.source.index)
  {
  }

  /**
   A move between two lists: the start list loses exactly the task at the source
   index (putting it back there restores the list), and the finish list gains it at
   the destination index (taking it out again restores the list).
   */
  lemma DragAcrossLists(b: Board, d: DropResult)
    requires DropFits(b, d) && Moves(d) && SourceIndex(b, d) != DestIndex(b, d)
    ensures var si := SourceIndex(b, d);
            var fi := DestIndex(b, d);
            var o := DragEnd(b, d).board;
            var moved := b[si].tasks[d.source.index];
            && |o[si].tasks| == |b[si].tasks| - 1
            && |o[fi].tasks| == |b[fi].tasks| + 1
            && InsertAt(o[si].tasks, d.source.index, moved) == b[si].tasks
            && o[fi].tasks[d.destination.value.index] == moved
            && RemoveAt(o[fi].tasks, d.destination.value.index) == b[fi].tasks
  {
    var si := SourceIndex(b, d);
    var fi := DestIndex(b, d);
    InsertAfterRemove(b[si].tasks, d.source.index);
    RemoveAfterInsert(b[fi].tasks, d.destination.value.index, b[si].tasks[d.source.index]);
  }

  /** No move creates or loses a task: the board holds the same tasks, so the same count. */
  lemma DragPreservesTasks(b: Board, d: DropResult)
    requires DropFits(b, d)
    ensures multiset(AllTasks(DragEnd(b, d).board)) == multiset(AllTasks(b))
    ensures TaskCount(DragEnd(b, d).board) == TaskCount(b)
  {
    var o := DragEnd(b, d).board;
    if Moves(d) {
      if SourceIndex(b, d) == DestIndex(b, d) {
        PreservesWithinList(b, d);
      } else {
        PreservesAcrossLists(b, d);
      }
    }
    assert |AllTasks(o)| == |multiset(AllTasks(o))|;
  }

  lemma PreservesWithinList(b: Board, d: DropResult)
    requires DropFits(b, d) && Moves(d) && SourceIndex(b, d) == DestIndex(b, d)
    ensures multiset(AllTasks(DragEnd(b, d).board)) == multiset(AllTasks(b))
  {
    var o := DragEnd(b, d).board;
    var si := SourceIndex(b, d);
    DragWithinList(b, d);
    assert b[si := o[si]] == o;
    AllTasksUpdate(b, si, o[si]);
    MultisetCancel(multiset(AllTasks(o)), multiset(AllTasks(b)), multiset(b[si].tasks));
  }

  lemma PreservesAcrossLists(b: Board, d: DropResult)
    requires DropFits(b, d) && Moves(d) && SourceIndex(b, d) != DestIndex(b, d)
    ensures multiset(AllTasks(DragEnd(b, d).board)) == multiset(AllTasks(b))
  {
    var o := DragEnd(b, d).board;
    var si := SourceIndex(b, d);
    var fi := DestIndex(b, d);
    var moved := b[si].tasks[d.source.index];
    var start := b[si];
    var removed := RemoveAt(start.tasks, d.source.index);
    var b1 := b[si := start.(tasks := removed)];
    assert b1[fi] == b[fi];
    assert b1[fi := o[fi]] == o;
    assert o[fi].tasks == InsertAt(b[fi].tasks, d.destination.value.index, moved);
    AllTasksUpdate(b, si, b1[si]);
    AllTasksUpdate(b1, fi, o[fi]);
    MultisetExchange(multiset(AllTasks(o)), multiset(AllTasks(b)), multiset(AllTasks(b1)),
                     multiset(b[fi].tasks), multiset(start.tasks), multiset(removed), moved);
  }

  /** The reverse drop: from where the task landed back to where it came from. */
  function Reverse(d: DropResult): (r: DropResult)
    requires d.destination.Some?
    ensures r.destination == Some(d.source) && r.source == d.destination.value
    ensures r.draggableId == d.draggableId
  {
    DropResult(d.draggableId, d.destination.value, Some(d.source))
  }

  /** The dragged id occurs only at the source index of the start list and nowhere in the finish list. */
  predicate DraggedIdUnique(b: Board, d: DropResult)
    requires Moves(d) && DropFits(b, d)
  {
    var si := SourceIndex(b, d);
    var fi := DestIndex(b, d);
    && (forall k :: 0 <= k < |b[si].tasks| && k != d.source.index ==> b[si].tasks[k].id != d.draggableId)
    && (si != fi ==> forall k :: 0 <= k < |b[fi].tasks| ==> b[fi].tasks[k].id != d.draggableId)
  }

  /**
   Every move can be compensated: when the dragged id is unique on the lists involved,
   the reverse drop fits the new board and restores the old one exactly.
   */
  lemma DragUndo(b: Board, d: DropResult)
    requires DropFits(b, d) && Moves(d) && DraggedIdUnique(b, d)
    ensures DropFits(DragEnd(b, d).board, Reverse(d))
    ensures DragEnd(DragEnd(b, d).board, Reverse(d)).board == b
  {
    if SourceIndex(b, d) == DestIndex(b, d) {
      UndoWithinList(b, d);
    } else {
      UndoAcrossLists(b, d);
    }
  }

  /** A drop never renames or reorders lists, so every list is found where it was. */
  lemma LookupKept(b: Board, d: DropResult, id: Id)
    requires DropFits(b, d)
    ensures IndexOfKey(DragEnd(b, d).board, ListId, id) == IndexOfKey(b, ListId, id)
  {
  }

  lemma UndoWithinList(b: Board, d: DropResult)
    requires DropFits(b, d) && Moves(d) && DraggedIdUnique(b, d)
    requires SourceIndex(b, d) == DestIndex(b, d)
    ensures DropFits(DragEnd(b, d).board, Reverse(d))
    ensures DragEnd(DragEnd(b, d).board, Reverse(d)).board == b
  {
    var o := DragEnd(b, d).board;
    var r := Reverse(d);
    var si := SourceIndex(b, d);
    LookupKept(b, d, d.source.droppableId);
    var src := d.source.index;
    var dst := d.destination.value.index;
    var moved := b[si].tasks[src];
    DragWithinList(b, d);
    var after := o[si].tasks;
    assert after == InsertAt(RemoveAt(b[si].tasks, src), dst, moved);
    forall k | 0 <= k < dst
      ensures after[k].id != d.draggableId
    {
      if k < src {
        assert after[k] == b[si].tasks[k];
      } else {
        assert after[k] == b[si].tasks[k + 1];
      }
    }
    IndexOfKeyIs(after, TaskId, d.draggableId, dst);
    assert DropFits(o, r);
    RemoveAfterInsert(RemoveAt(b[si].tasks, src), dst, moved);
    InsertAfterRemove(b[si].tasks, src);
    var back := DragEnd(o, r).board;
    assert back[si].tasks == b[si].tasks;
    assert back == b;
  }

  lemma UndoAcrossLists(b: Board, d: DropResult)
    requires DropFits(b, d) && Moves(d) && DraggedIdUnique(b, d)
    requires SourceIndex(b, d) != DestIndex(b, d)
    ensures DropFits(DragEnd(b, d).board, Reverse(d))
    ensures DragEnd(DragEnd(b, d).board, Reverse(d)).board == b
  {
    var o := DragEnd(b, d).board;
    var r := Reverse(d);
    var si := SourceIndex(b, d);
    var fi := DestIndex(b, d);
    LookupKept(b, d, d.source.droppableId);
    LookupKept(b, d, d.destination.value.droppableId);
    var dst := d.destination.value.index;
    DragAcrossLists(b, d);
    var after := o[fi].tasks;
    forall k | 0 <= k < dst
      ensures after[k].id != d.draggableId
    {
      assert after[k] == b[fi].tasks[k];
    }
    IndexOfKeyIs(after, TaskId, d.draggableId, dst);
    assert DropFits(o, r);
    var back := DragEnd(o, r).board;
    assert back[fi].tasks == b[fi].tasks;
    assert back[si].tasks == b[si].tasks;
    assert back == b;
  }

  // ---------------------------------------------------------------------------
  // Created and deleted items

  /** After a task is created in list `listId`, it is appended to every list with that id. */
  function AppendTask(b: Board, listId: Id, t: Task): (r: Board)
    ensures |r| == |b|
    ensures forall i :: 0 <= i < |b| && b[i].id != listId ==> r[i] == b[i]
    ensures forall i :: 0 <= i < |b| && b[i].id == listId ==>
              && SameHeader(r[i], b[i])
              && |r[i].tasks| == |b[i].tasks| + 1
              && r[i].tasks[..|b[i].tasks|] == b[i].tasks
              && r[i].tasks[|b[i].tasks|] == t
  {
    seq(|b|, i requires 0 <= i < |b| => if b[i].id == listId then b[i].(tasks := b[i].tasks + [t]) else b[i])
  }

  /** After a list is created, it is appended at the end of the board with no tasks. */
  function AppendList(b: Board, created: FetchedList): (r: Board)
    ensures |r| == |b| + 1
    ensures r[..|b|] == b
    ensures r[|b|].tasks == []
    ensures r[|b|].id == created.id && r[|b|].name == created.name
    ensures r[|b|].projectId == created.projectId && r[|b|].position == created.position
  {
    b + [TaskList(created.id, created.name, created.projectId, created.position, [])]
  }

  function NotId(id: Id): Task -> bool {
    (t: Task) => t.id != id
  }

  /** After a task is deleted, every list drops every task with that id. */
  function RemoveTask(b: Board, taskId: Id): (r: Board)
    ensures |r| == |b|
    ensures forall i :: 0 <= i < |b| ==> SameHeader(r[i], b[i])
    ensures forall i, k :: 0 <= i < |b| && 0 <= k < |r[i].tasks| ==> r[i].tasks[k].id != taskId
    ensures forall i, k :: 0 <= i < |b| && 0 <= k < |r[i].tasks| ==> r[i].tasks[k] in b[i].tasks
    ensures forall i, k :: 0 <= i < |b| && 0 <= k < |b[i].tasks| && b[i].tasks[k].id != taskId ==> b[i].tasks[k] in r[i].tasks
  {
    seq(|b|, i requires 0 <= i < |b| => b[i].(tasks := Filter(b[i].tasks, NotId(taskId))))
  }

  /**
   Deleting keeps every other task exactly as often as it occurred and drops every
   copy of the deleted id.
   */
  lemma RemoveTaskCount(b: Board, taskId: Id, i: nat)
    requires i < |b|
    ensures forall k :: 0 <= k < |b[i].tasks| ==>
              multiset(RemoveTask(b, taskId)[i].tasks)[b[i].tasks[k]]
              == (if b[i].tasks[k].id != taskId then multiset(b[i].tasks)[b[i].tasks[k]] else 0)
  {
    FilterCount(b[i].tasks, NotId(taskId));
  }

  /**
   Deleting keeps the survivors in their order: cutting a list anywhere, the survivors
   of the part before the cut come first, followed by the survivors of the rest.
   */
  lemma RemoveTaskKeepsOrder(b: Board, taskId: Id, i: nat, k: nat)
    requires i < |b| && k <= |b[i].tasks|
    ensures RemoveTask(b, taskId)[i].tasks
         == Filter(b[i].tasks[..k], NotId(taskId)) + Filter(b[i].tasks[k..], NotId(taskId))
  {
    assert b[i].tasks == b[i].tasks[..k] + b[i].tasks[k..];
    FilterAppend(b[i].tasks[..k], b[i].tasks[k..], NotId(taskId));
  }

  /** Deleting keeps the survivors in order: a list sorted by position stays sorted. */
  lemma RemoveTaskKeepsSorted(b: Board, taskId: Id, i: nat)
    requires i < |b| && SortedBy(b[i].tasks, TaskPosition)
    ensures SortedBy(RemoveTask(b, taskId)[i].tasks, TaskPosition)
  {
    FilterKeepsSorted(b[i].tasks, NotId(taskId), TaskPosition);
  }

  /** Deleting the same task twice leaves the board as deleting it once. */
  lemma RemoveTaskIdempotent(b: Board, taskId: Id)
    ensures RemoveTask(RemoveTask(b, taskId), taskId) == RemoveTask(b, taskId)
  {
    var once := RemoveTask(b, taskId);
    forall i | 0 <= i < |b|
      ensures RemoveTask(once, taskId)[i] == once[i]
    {
      FilterIdempotent(b[i].tasks, NotId(taskId));
    }
  }

  /** No list on the board holds a task with this id. */
  predicate Absent(b: Board, taskId: Id) {
    forall i, k :: 0 <= i < |b| && 0 <= k < |b[i].tasks| ==> b[i].tasks[k].id != taskId
  }

  /** Deleting a freshly created task restores the board it was created on. */
  lemma DeleteUndoesCreate(b: Board, listId: Id, t: Task)
    requires Absent(b, t.id)
    ensures RemoveTask(AppendTask(b, listId, t), t.id) == b
  {
    var a := AppendTask(b, listId, t);
    forall i | 0 <= i < |b|
      ensures RemoveTask(a, t.id)[i] == b[i]
    {
      FilterKeepsAll(b[i].tasks, NotId(t.id));
      if b[i].id == listId {
        assert a[i].tasks == b[i].tasks + [t];
        FilterAppend(b[i].tasks, [t], NotId(t.id));
        assert Filter([t], NotId(t.id)) == [];
      }
    }
  }

  /** A task created with a position above all of its list's positions keeps that list sorted. */
  lemma AppendTaskKeepsSorted(b: Board, listId: Id, t: Task, i: nat)
    requires i < |b| && SortedBy(b[i].tasks, TaskPosition)
    requires forall k :: 0 <= k < |b[i].tasks| ==> b[i].tasks[k].position < t.position
    ensures SortedBy(AppendTask(b, listId, t)[i].tasks, TaskPosition)
  {
  }

  /** A list created with a position above all of the board's positions keeps the board sorted. */
  lemma AppendListKeepsSorted(b: Board, created: FetchedList)
    requires SortedBy(b, ListPosition)
    requires forall k :: 0 <= k < |b| ==> b[k].position < created.position
    ensures SortedBy(AppendList(b, created), ListPosition)
  {
  }
}

=== FILE: ids.dfy ===
/** Row ids and user ids, shared by the client board, the store and the middleware. */
module Ids {
  /** A row id (project, list or task) as the store hands it out. */
  type Id = string

  /** The identity provider's id of a user. */
  type UserId = string
}

=== FILE: lists.dfy ===
/** The list handler: create a list at the end of a project the requester owns. */
module Lists {
  import opened Wrappers
  import opened Store
  import opened Ids

  /**
   `createList`: reject a missing name, find the project by id and owner together
   (no match answers 404), then insert the list under the store-chosen id `newId`
   with position one above the project's highest list, or 0 for the first list.
   */
  function CreateList(s: Store, user: UserId, projectId: Id, name: Option<string>, newId: Id): (r: Reply)
    ensures !Present(name) ==> r == Reply(400, s)
    ensures r.status == 404 <==> Present(name) && !(projectId in s.projects && s.projects[projectId].userId == user)
    ensures r.status == 201 <==>
              Present(name) && projectId in s.projects && s.projects[projectId].userId == user && newId !in s.lists
    ensures r.status in {201, 400, 404, 500}
    ensures r.status != 201 ==> r.store == s
    ensures r.status == 201 ==>
              && r.store.projects == s.projects
              && r.store.tasks == s.tasks
              && r.store.lists.Keys == s.lists.Keys + {newId}
              && (forall l :: l in s.lists ==> r.store.lists[l] == s.lists[l])
              && r.store.lists[newId].name == name.value
              && r.store.lists[newId].projectId == projectId
  {
    if !Present(name) then Reply(400, s)
    else if !(projectId in s.projects && s.projects[projectId].userId == user) then Reply(404, s)
    else if newId in s.lists then Reply(500, s)
    else
      var row := ListRow(name.value, projectId, NextPosition(ListPositions(s, projectId)));
      Reply(201, s.(lists := s.lists[newId := row]))
  }

  /**
   A created list lands after its project's lists: its position is above every
   position in the project, 0 for the first list, and otherwise exactly one more
   than some sibling's position (the highest).
   */
  lemma CreateListPosition(s: Store, user: UserId, projectId: Id, name: Option<string>, newId: Id)
    requires CreateList(s, user, projectId, name, newId).status == 201
    ensures var p := CreateList(s, user, projectId, name, newId).store.lists[newId].position;
            && (forall l :: l in s.lists && s.lists[l].projectId == projectId ==> s.lists[l].position < p)
            && ((forall l :: l in s.lists ==> s.lists[l].projectId != projectId) ==> p == 0)
            && ((exists l :: l in s.lists && s.lists[l].projectId == projectId) ==>
                  exists l :: l in s.lists && s.lists[l].projectId == projectId && s.lists[l].position == p - 1)
  {
  }

  /** Position is scoped per project: storing a list of another project does not change it. */
  lemma ListPositionScoped(s: Store, projectId: Id, other: Id, row: ListRow)
    requires other !in s.lists && row.projectId != projectId
    ensures ListPositions(s.(lists := s.lists[other := row]), projectId) == ListPositions(s, projectId)
  {
    var s' := s.(lists := s.lists[other := row]);
    forall q | q in ListPositions(s', projectId)
      ensures q in ListPositions(s, projectId)
    {
      var l :| l in s'.lists && s'.lists[l].projectId == projectId && s'.lists[l].position == q;
      assert l != other;
    }
    forall q | q in ListPositions(s, projectId)
      ensures q in ListPositions(s', projectId)
    {
      var l :| l in s.lists && s.lists[l].projectId == projectId && s.lists[l].position == q;
      assert l in s'.lists && s'.lists[l] == s.lists[l];
    }
  }

  /** Two successive creates in one project get consecutive, so strictly increasing, positions. */
  lemma SuccessiveListsIncrease(s: Store, user: UserId, projectId: Id, n1: Option<string>, id1: Id, n2: Option<string>, id2: Id)
    requires CreateList(s, user, projectId, n1, id1).status == 201
    requires CreateList(CreateList(s, user, projectId, n1, id1).store, user, projectId, n2, id2).status == 201
    ensures var s1 := CreateList(s, user, projectId, n1, id1).store;
            var s2 := CreateList(s1, user, projectId, n2, id2).store;
            s2.lists[id2].position == s1.lists[id1].position + 1
  {
  }

  /** Creating a list keeps every foreign key intact. */
  lemma CreateListKeepsConsistency(s: Store, user: UserId, projectId: Id, name: Option<string>, newId: Id)
    requires Consistent(s)
    ensures Consistent(CreateList(s, user, projectId, name, newId).store)
  {
  }
}

=== FILE: projects.dfy ===
/**
 The project handlers. Every query filters on the requester's id together with the
 project id, so another user's project behaves exactly like a missing one.
 */
module Projects {
  import opened Wrappers
  import opened Store
  import opened Ids

  /** A read handler's answer: the HTTP status and, on success, the data sent back. */
  datatype Fetched<T> = Fetched(status: int, data: Option<T>)

  /** The project id names a project of this requester. */
  predicate OwnsProject(s: Store, user: UserId, id: Id) {
    id in s.projects && s.projects[id].userId == user
  }

  /**
   `createProject`: reject a missing name, then insert a row carrying only the name;
   the owner column is filled by the store's default (`auth.uid()` of the store
   session, here `sessionUid`), not by the handler. Any insert error answers 400.
   */
  function CreateProject(s: Store, name: Option<string>, newId: Id, sessionUid: UserId): (r: Reply)
    ensures r.status == 201 <==> Present(name) && newId !in s.projects
    ensures r.status in {201, 400}
    ensures r.status == 400 ==> r.store == s
    ensures r.status == 201 ==>
              && r.store.lists == s.lists
              && r.store.tasks == s.tasks
              && r.store.projects.Keys == s.projects.Keys + {newId}
              && (forall p :: p in s.projects ==> r.store.projects[p] == s.projects[p])
              && r.store.projects[newId] == ProjectRow(name.value, sessionUid)
  {
    if !Present(name) then Reply(400, s)
    else if newId in s.projects then Reply(400, s)
    else Reply(201, s.(projects := s.projects[newId := ProjectRow(name.value, sessionUid)]))
  }

  /** `getProjects`: exactly the requester's projects. */
  function GetProjects(s: Store, user: UserId): (f: Fetched<map<Id, ProjectRow>>)
    ensures f.status == 200 && f.data.Some?
    ensures forall p :: p in f.data.value <==> OwnsProject(s, user, p)
    ensures forall p :: p in f.data.value ==> p in s.projects && f.data.value[p] == s.projects[p]
  {
    Fetched(200, Some(map p | p in s.projects && s.projects[p].userId == user :: s.projects[p]))
  }

  /** A project created while the store session is the requester's is listed for the requester. */
  lemma CreatedProjectIsListed(s: Store, user: UserId, name: Option<string>, newId: Id)
    requires CreateProject(s, name, newId, user).status == 201
    ensures newId in GetProjects(CreateProject(s, name, newId, user).store, user).data.value
  {
  }

  /**
   `updateProject`: reject a missing name, then rename the row matching both the id
   and the requester. `.single()` turns "no matching row" into an error, which is
   thrown and answered 500; the 404 branch after it is never taken.
   */
  function UpdateProject(s: Store, user: UserId, id: Id, name: Option<string>): (r: Reply)
    ensures !Present(name) ==> r == Reply(400, s)
    ensures r.status == 200 <==> Present(name) && OwnsProject(s, user, id)
    ensures r.status == 500 <==> Present(name) && !OwnsProject(s, user, id)
    ensures r.status != 404
    ensures r.status != 200 ==> r.store == s
    ensures r.status == 200 ==>
              && r.store.lists == s.lists
              && r.store.tasks == s.tasks
              && r.store.projects.Keys == s.projects.Keys
              && (forall p :: p in s.projects && p != id ==> r.store.projects[p] == s.projects[p])
              && r.store.projects[id] == ProjectRow(name.value, user)
  {
    if !Present(name) then Reply(400, s)
    else if !OwnsProject(s, user, id) then Reply(500, s)
    else Reply(200, s.(projects := s.projects[id := s.projects[id].(name := name.value)]))
  }

  /** Renaming a project keeps every foreign key intact. */
  lemma UpdateProjectKeepsConsistency(s: Store, user: UserId, id: Id, name: Option<string>)
    requires Consistent(s)
    ensures Consistent(UpdateProject(s, user, id, name).store)
  {
  }

  /** The lists that go with a deleted project. */
  predicate InProject(s: Store, listId: Id, id: Id) {
    listId in s.lists && s.lists[listId].projectId == id
  }

  /**
   `deleteProject`: delete the row matching both the id and the requester, and
   answer 204 whether or not anything matched. The project's lists and their tasks
   go with it (the schema's cascading foreign keys).
   */
  function DeleteProject(s: Store, user: UserId, id: Id): (r: Reply)
    ensures r.status == 204
    ensures !OwnsProject(s, user, id) ==> r.store == s
    ensures OwnsProject(s, user, id) ==>
              && r.store.projects.Keys == s.projects.Keys - {id}
              && (forall p :: p in r.store.projects ==> r.store.projects[p] == s.projects[p])
              && (forall l :: l in s.lists ==> (l in r.store.lists <==> s.lists[l].projectId != id))
              && (forall l :: l in r.store.lists ==> l in s.lists && r.store.lists[l] == s.lists[l])
              && (forall t :: t in s.tasks ==> (t in r.store.tasks <==> !InProject(s, s.tasks[t].listId, id)))
              && (forall t :: t in r.store.tasks ==> t in s.tasks && r.store.tasks[t] == s.tasks[t])
  {
    if !OwnsProject(s, user, id) then Reply(204, s)
    else
      Reply(204, Store(
        s.projects - {id},
        map l | l in s.lists && s.lists[l].projectId != id :: s.lists[l],
        map t | t in s.tasks && !InProject(s, s.tasks[t].listId, id) :: s.tasks[t]))
  }

  /** Deleting a project keeps every foreign key intact. */
  lemma DeleteProjectKeepsConsistency(s: Store, user: UserId, id: Id)
    requires Consistent(s)
    ensures Consistent(DeleteProject(s, user, id).store)
  {
  }

  /** A list as the nested project fetch returns it. */
  datatype ListNode = ListNode(name: string, position: int, tasks: map<Id, TaskRow>)

  /** A project with its lists and their tasks, as `select('*, lists(*, tasks(*))')` returns it. */
  datatype ProjectTree = ProjectTree(id: Id, name: string, userId: UserId, lists: map<Id, ListNode>)

  /**
   `getProjectById`: the project matching both the id and the requester, with its
   lists and their tasks nested. No match makes `.single()` fail, which answers 500.
   */
  function GetProjectById(s: Store, user: UserId, id: Id): (f: Fetched<ProjectTree>)
    ensures f.status == 200 <==> OwnsProject(s, user, id)
    ensures f.status != 200 ==> f.status == 500 && f.data.None?
    ensures f.status == 200 ==>
              && f.data.Some?
              && f.data.value.id == id
              && f.data.value.name == s.projects[id].name
              && f.data.value.userId == user
              && (forall l :: l in f.data.value.lists <==> InProject(s, l, id))
              && (forall l, t :: l in f.data.value.lists ==>
                    (t in f.data.value.lists[l].tasks <==> t in s.tasks && s.tasks[t].listId == l))
              && (forall l :: l in f.data.value.lists ==>
                    f.data.value.lists[l].position == s.lists[l].position)
              && (forall l :: l in f.data.value.lists ==> f.data.value.lists[l].name == s.lists[l].name)
              && (forall l, t :: l in f.data.value.lists && t in f.data.value.lists[l].tasks ==>
                    f.data.value.lists[l].tasks[t] == s.tasks[t])
  {
    if !OwnsProject(s, user, id) then Fetched(500, None)
    else
      var lists := map l | l in s.lists && s.lists[l].projectId == id ::
        ListNode(s.lists[l].name, s.lists[l].position,
                 map t | t in s.tasks && s.tasks[t].listId == l :: s.tasks[t]);
      Fetched(200, Some(ProjectTree(id, s.projects[id].name, user, lists)))
  }

  /** The single-project fetch succeeds exactly for the projects the listing shows. */
  lemma FetchedIffListed(s: Store, user: UserId, id: Id)
    ensures GetProjectById(s, user, id).status == 200 <==> id in GetProjects(s, user).data.value
  {
  }

  /** A successful rename is what the next fetch of that project shows. */
  lemma RenameIsFetched(s: Store, user: UserId, id: Id, name: Option<string>)
    requires UpdateProject(s, user, id, name).status == 200
    ensures var f := GetProjectById(UpdateProject(s, user, id, name).store, user, id);
            f.status == 200 && f.data.value.name == name.value
  {
  }

  /** After the owner deletes a project, fetching it fails and the listing no longer shows it. */
  lemma DeletedProjectIsGone(s: Store, user: UserId, id: Id)
    ensures GetProjectById(DeleteProject(s, user, id).store, user, id).status == 500
    ensures id !in GetProjects(DeleteProject(s, user, id).store, user).data.value
  {
  }
}

=== FILE: scenarios.dfy ===
/**
 Two end-to-end walks through client and server together, on a project "p" of user
 "u" with list "a" holding t1, t2, t3 at positions 0, 1, 2 and an empty list "b".
 */
module Scenarios {
  import opened Wrappers
  import opened Seqs
  import C = Board
  import S = Store
  import Tasks
  import Projects

  const T1 := C.Task("t1", "one", "a", 0)
  const T2 := C.Task("t2", "two", "a", 1)
  const T3 := C.Task("t3", "three", "a", 2)

  function TwoLists(aTasks: seq<C.Task>, bTasks: seq<C.Task>): C.Board {
    [C.TaskList("a", "todo", "p", 0, aTasks), C.TaskList("b", "done", "p", 1, bTasks)]
  }

  function Rows(): S.Store {
    S.Store(
      map["p" := S.ProjectRow("board", "u")],
      map["a" := S.ListRow("todo", "p", 0), "b" := S.ListRow("done", "p", 1)],
      map["t1" := S.TaskRow("one", "a", 0), "t2" := S.TaskRow("two", "a", 1), "t3" := S.TaskRow("three", "a", 2)])
  }

  /**
   Dragging t2 from index 1 of "a" to index 0 of "b": the client shows a = [t1, t3]
   and b = [t2] at once and asks the server for (t2, b, 0); the server then stores t2
   in list "b" at position 0 and touches nothing else.
   */
  lemma MoveAcrossScenario()
    ensures C.DropFits(TwoLists([T1, T2, T3], []), C.DropResult("t2", C.Location("a", 1), Some(C.Location("b", 0))))
    ensures C.DragEnd(TwoLists([T1, T2, T3], []), C.DropResult("t2", C.Location("a", 1), Some(C.Location("b", 0))))
         == C.DragOutcome(TwoLists([T1, T3], [T2]), Some(C.MoveRequest("t2", "b", 0)))
    ensures Tasks.UpdateTaskPosition(Rows(), "u", "t2", "b", 0)
         == S.Reply(200, Rows().(tasks := Rows().tasks["t2" := S.TaskRow("two", "b", 0)]))
  {
    MoveAcrossFits();
    MoveAcrossClient();
    assert S.TaskChain(Rows(), "t2") == S.OwnedBy("u");
  }

  /** The drop of t2 onto the head of "b" meets the drag handler's precondition. */
  lemma MoveAcrossFits()
    ensures C.DropFits(TwoLists([T1, T2, T3], []), C.DropResult("t2", C.Location("a", 1), Some(C.Location("b", 0))))
  {
  }

  /** What the client shows and sends after the drop of t2 onto the head of "b". */
  lemma MoveAcrossClient()
    requires C.DropFits(TwoLists([T1, T2, T3], []), C.DropResult("t2", C.Location("a", 1), Some(C.Location("b", 0))))
    ensures C.DragEnd(TwoLists([T1, T2, T3], []), C.DropResult("t2", C.Location("a", 1), Some(C.Location("b", 0))))
         == C.DragOutcome(TwoLists([T1, T3], [T2]), Some(C.MoveRequest("t2", "b", 0)))
  {
    var b := TwoLists([T1, T2, T3], []);
    var d := C.DropResult("t2", C.Location("a", 1), Some(C.Location("b", 0)));
    assert IndexOfKey(b, C.ListId, "a") == Some(0);
    assert IndexOfKey(b, C.ListId, "b") == Some(1);
    assert IndexOfKey(b[0].tasks, C.TaskId, "t2") == Some(1);
    assert RemoveAt([T1, T2, T3], 1) == [T1, T3];
    assert InsertAt([], 0, T2) == [T2];
    var shown := b[0 := b[0].(tasks := RemoveAt(b[0].tasks, 1))][1 := b[1].(tasks := InsertAt(b[1].tasks, 0, T2))];
    assert shown == TwoLists([T1, T3], [T2]);
    assert C.DragEnd(b, d) == C.DragOutcome(shown, Some(C.MoveRequest("t2", "b", 0)));
  }

  /** The store after the owner deletes t1: only t2 and t3 remain, both in "a", positions kept. */
  function AfterDelete(): S.Store {
    Rows().(tasks := map["t2" := S.TaskRow("two", "a", 1), "t3" := S.TaskRow("three", "a", 2)])
  }

  /**
   Deleting t1 from a = [t1, t2, t3] leaves [t2, t3] on screen. The server delete
   answers 204 and leaves a gap in the stored positions (t2 keeps 1, t3 keeps 2). The
   project fetch of that store returns "a" holding t2 and t3 and "b" holding nothing;
   whatever order the tasks arrive in, loading shows [t2, t3] again.
   */
  lemma DeleteThenReloadScenario()
    ensures C.RemoveTask(TwoLists([T1, T2, T3], []), "t1") == TwoLists([T2, T3], [])
    ensures Tasks.DeleteTask(Rows(), "u", "t1") == S.Reply(204, AfterDelete())
    ensures var tree := Projects.GetProjectById(AfterDelete(), "u", "p");
            && tree.status == 200
            && tree.data.value.lists.Keys == {"a", "b"}
            && tree.data.value.lists["a"].tasks == AfterDelete().tasks
            && tree.data.value.lists["b"].tasks == map[]
    ensures C.LoadBoard([C.FetchedList("a", "todo", "p", 0, Some([T3, T2])), C.FetchedList("b", "done", "p", 1, Some([]))])
         == TwoLists([T2, T3], [])
  {
    DeleteOnClient();
    DeleteOnServer();
    FetchAfterDelete();
    ReloadAfterDelete();
  }

  lemma DeleteOnClient()
    ensures C.RemoveTask(TwoLists([T1, T2, T3], []), "t1") == TwoLists([T2, T3], [])
  {
    FilterOutT1();
    var keep := C.NotId("t1");
    var b := TwoLists([T1, T2, T3], []);
    var r := C.RemoveTask(b, "t1");
    assert r[0] == b[0].(tasks := Filter([T1, T2, T3], keep));
    assert r[1] == b[1].(tasks := Filter([], keep));
    assert r == [r[0], r[1]];
  }

  lemma FilterOutT1()
    ensures Filter([T1, T2, T3], C.NotId("t1")) == [T2, T3]
    ensures Filter([], C.NotId("t1")) == []
  {
  }

  lemma DeleteOnServer()
    ensures Tasks.DeleteTask(Rows(), "u", "t1") == S.Reply(204, AfterDelete())
  {
  }

  lemma FetchAfterDelete()
    ensures var tree := Projects.GetProjectById(AfterDelete(), "u", "p");
            && tree.status == 200
            && tree.data.value.lists.Keys == {"a", "b"}
            && tree.data.value.lists["a"].tasks == AfterDelete().tasks
            && tree.data.value.lists["b"].tasks == map[]
  {
  }

  lemma ReloadAfterDelete()
    ensures C.LoadBoard([C.FetchedList("a", "todo", "p", 0, Some([T3, T2])), C.FetchedList("b", "done", "p", 1, Some([]))])
         == TwoLists([T2, T3], [])
  {
    var fetched := [C.FetchedList("a", "todo", "p", 0, Some([T3, T2])), C.FetchedList("b", "done", "p", 1, Some([]))];
    assert SortedBy(fetched, C.FetchedPosition);
    SortBySorted(fetched, C.FetchedPosition);
    assert SortBy([T2], C.TaskPosition) == [T2] by {
      assert [T2][1..] == [];
    }
    assert InsertSorted(T3, [T2], C.TaskPosition) == [T2, T3] by {
      assert [T2][1..] == [];
    }
    assert SortBy([T3, T2], C.TaskPosition) == [T2, T3] by {
      assert [T3, T2][1..] == [T2];
    }
    var shown := C.NormalizeAll(fetched);
    assert shown[0] == C.TaskList("a", "todo", "p", 0, [T2, T3]);
    assert shown[1] == C.TaskList("b", "done", "p", 1, []);
    assert shown == TwoLists([T2, T3], []);
  }

}

=== FILE: seqs.dfy ===
/**
 Sequence operations the board is built from: the two forms of `Array.prototype.splice`
 the client uses, `find`/`findIndex` by key, `filter`, and the stable sort that
 `Array.prototype.sort` performs with a numeric comparator.
 */
module Seqs {
  import opened Wrappers

  /** `s.splice(i, 1)`: the element at `i` is taken out, the rest close up. */
  function RemoveAt<T>(s: seq<T>, i: nat): (r: seq<T>)
    requires i < |s|
    ensures |r| == |s| - 1
    ensures forall k :: 0 <= k < i ==> r[k] == s[k]
    ensures forall k :: i <= k < |r| ==> r[k] == s[k + 1]
    ensures multiset(r) + multiset{s[i]} == multiset(s)
  {
    assert s == s[..i] + [s[i]] + s[i + 1..];
    s[..i] + s[i + 1..]
  }

  /** `s.splice(i, 0, x)`: `x` lands at index `i`, later elements shift right by one. */
  function InsertAt<T>(s: seq<T>, i: nat, x: T): (r: seq<T>)
    requires i <= |s|
    ensures |r| == |s| + 1
    ensures r[i] == x
    ensures forall k :: 0 <= k < i ==> r[k] == s[k]
    ensures forall k :: i <= k < |s| ==> r[k + 1] == s[k]
    ensures multiset(r) == multiset(s) + multiset{x}
  {
    assert s == s[..i] + s[i..];
    s[..i] + [x] + s[i..]
  }

  /** Removing what was just inserted gives back the original sequence. */
  lemma RemoveAfterInsert<T>(s: seq<T>, i: nat, x: T)
    requires i <= |s|
    ensures RemoveAt(InsertAt(s, i, x), i) == s
  {
  }

  /** Putting an element back where it was taken from gives back the original sequence. */
  lemma InsertAfterRemove<T>(s: seq<T>, i: nat)
    requires i < |s|
    ensures InsertAt(RemoveAt(s, i), i, s[i]) == s
  {
  }

  /** `s.findIndex(x => key(x) === id)`, with JavaScript's -1 as None: the first match. */
  function IndexOfKey<T>(s: seq<T>, key: T -> string, id: string): (r: Option<nat>)
    ensures r.Some? ==> r.value < |s| && key(s[r.value]) == id
    ensures r.Some? ==> forall k :: 0 <= k < r.value ==> key(s[k]) != id
    ensures r.None? ==> forall k :: 0 <= k < |s| ==> key(s[k]) != id
  {
    if |s| == 0 then None
    else if key(s[0]) == id then Some(0)
    else match IndexOfKey(s[1..], key, id)
      case None => None
      case Some(k) => Some(k + 1)
  }

  /** The first match is the only index with the matching key and no match before it. */
  lemma IndexOfKeyIs<T>(s: seq<T>, key: T -> string, id: string, i: nat)
    requires i < |s| && key(s[i]) == id
    requires forall k :: 0 <= k < i ==> key(s[k]) != id
    ensures IndexOfKey(s, key, id) == Some(i)
  {
  }

  /** `s.filter(p)`: the elements satisfying `p`, in their original order. */
  function Filter<T>(s: seq<T>, p: T -> bool): (r: seq<T>)
    ensures |r| <= |s|
    ensures forall i :: 0 <= i < |r| ==> r[i] in s && p(r[i])
    ensures forall i :: 0 <= i < |s| && p(s[i]) ==> s[i] in r
    ensures multiset(r) <= multiset(s)
  {
    if |s| == 0 then []
    else
      assert s == [s[0]] + s[1..];
      if p(s[0]) then [s[0]] + Filter(s[1..], p)
      else Filter(s[1..], p)
  }

  /** Every element passing the test is kept as often as it occurs; the others are dropped. */
  lemma {:induction false} FilterCount<T>(s: seq<T>, p: T -> bool)
    ensures forall i :: 0 <= i < |s| ==>
              multiset(Filter(s, p))[s[i]] == (if p(s[i]) then multiset(s)[s[i]] else 0)
  {
    if |s| > 0 {
      FilterCount(s[1..], p);
      FilterCountStep(s, p, Filter(s[1..], p));
    }
  }

  /** One step of `Filter`'s count clause: from the tail's counts to the whole sequence's. */
  lemma FilterCountStep<T>(s: seq<T>, p: T -> bool, rest: seq<T>)
    requires |s| > 0
    requires multiset(rest) <= multiset(s[1..])
    requires forall i :: 1 <= i < |s| ==> multiset(rest)[s[i]] == (if p(s[i]) then multiset(s[1..])[s[i]] else 0)
    ensures var r := if p(s[0]) then [s[0]] + rest else rest;
            forall i :: 0 <= i < |s| ==> multiset(r)[s[i]] == (if p(s[i]) then multiset(s)[s[i]] else 0)
  {
    var r := if p(s[0]) then [s[0]] + rest else rest;
    assert s == [s[0]] + s[1..];
    forall i | 0 <= i < |s|
      ensures multiset(r)[s[i]] == (if p(s[i]) then multiset(s)[s[i]] else 0)
    {
      var x := s[i];
      assert multiset(s)[x] == (if x == s[0] then 1 else 0) + multiset(s[1..])[x];
      if x !in s[1..] {
        assert multiset(s[1..])[x] == 0;
        assert multiset(rest)[x] == 0;
      } else {
        var j :| 0 <= j < |s[1..]| && s[1..][j] == x;
        assert s[j + 1] == x;
      }
    }
  }

  /** Filtering distributes over concatenation, so kept elements keep their relative order. */
  lemma {:induction false} FilterAppend<T>(a: seq<T>, b: seq<T>, p: T -> bool)
    ensures Filter(a + b, p) == Filter(a, p) + Filter(b, p)
  {
    if |a| == 0 {
      assert a + b == b;
    } else {
      assert (a + b)[1..] == a[1..] + b;
      FilterAppend(a[1..], b, p);
    }
  }

  /** Filtering twice by the same test keeps what filtering once keeps. */
  lemma {:induction false} FilterIdempotent<T>(s: seq<T>, p: T -> bool)
    ensures Filter(Filter(s, p), p) == Filter(s, p)
  {
    if |s| > 0 {
      FilterIdempotent(s[1..], p);
      if p(s[0]) {
        assert ([s[0]] + Filter(s[1..], p))[1..] == Filter(s[1..], p);
      }
    }
  }

  /** Filtering by a test every element passes changes nothing. */
  lemma {:induction false} FilterKeepsAll<T>(s: seq<T>, p: T -> bool)
    requires forall k :: 0 <= k < |s| ==> p(s[k])
    ensures Filter(s, p) == s
  {
    if |s| > 0 {
      FilterKeepsAll(s[1..], p);
    }
  }

  /** Cancelling a common part on both sides of a multiset equation. */
  lemma MultisetCancel<T>(a: multiset<T>, c: multiset<T>, m: multiset<T>)
    requires a + m == c + m
    ensures a == c
  {
    assert forall e :: a[e] == (a + m)[e] - m[e];
  }

  /** Pointwise bookkeeping for a move between two lists. */
  lemma MultisetExchange<T>(mo: multiset<T>, mb: multiset<T>, mb1: multiset<T>,
                            f: multiset<T>, s: multiset<T>, r: multiset<T>, x: T)
    requires mb1 + s == mb + r
    requires mo + f == mb1 + (f + multiset{x})
    requires r + multiset{x} == s
    ensures mo == mb
  {
    assert forall e :: mo[e] == (mo + f)[e] - f[e];
    assert forall e :: mb1[e] == (mb1 + s)[e] - s[e];
    assert forall e :: mo[e] == mb[e];
  }

  /** `s.map(f)`. */
  function Map<A, B>(s: seq<A>, f: A -> B): (r: seq<B>)
    ensures |r| == |s|
    ensures forall i :: 0 <= i < |s| ==> r[i] == f(s[i])
  {
    seq(|s|, i requires 0 <= i < |s| => f(s[i]))
  }

  lemma MapRemoveAt<A, B>(ys: seq<A>, j: nat, f: A -> B)
    requires j < |ys|
    ensures multiset(Map(ys, f)) == multiset(Map(RemoveAt(ys, j), f)) + multiset{f(ys[j])}
  {
    var my := Map(ys, f);
    assert Map(RemoveAt(ys, j), f) == RemoveAt(my, j);
  }

  /** Mapping commutes with permuting: permuted inputs give permuted outputs. */
  lemma {:induction false} MapPermutation<A, B>(xs: seq<A>, ys: seq<A>, f: A -> B)
    requires multiset(xs) == multiset(ys)
    ensures multiset(Map(xs, f)) == multiset(Map(ys, f))
    decreases |xs|
  {
    if |xs| > 0 {
      var x := xs[0];
      assert x in multiset(ys);
      var j :| 0 <= j < |ys| && ys[j] == x;
      var ys' := RemoveAt(ys, j);
      assert xs == [x] + xs[1..];
      assert multiset(xs) == multiset(xs[1..]) + multiset{x};
      MultisetCancel(multiset(xs[1..]), multiset(ys'), multiset{x});
      MapPermutation(xs[1..], ys', f);
      MapRemoveAt(xs, 0, f);
      assert RemoveAt(xs, 0) == xs[1..];
      MapRemoveAt(ys, j, f);
    }
  }

  /** Ascending by `key`, every pair in order (ties allowed). */
  predicate SortedBy<T>(s: seq<T>, key: T -> int) {
    forall i, j :: 0 <= i < j < |s| ==> key(s[i]) <= key(s[j])
  }

  /** A filtered sequence is a subsequence, so it stays sorted. */
  lemma {:induction false} FilterKeepsSorted<T>(s: seq<T>, p: T -> bool, key: T -> int)
    requires SortedBy(s, key)
    ensures SortedBy(Filter(s, p), key)
  {
    if |s| > 0 {
      assert SortedBy(s[1..], key);
      FilterKeepsSorted(s[1..], p, key);
      var rest := Filter(s[1..], p);
      if p(s[0]) {
        var r := [s[0]] + rest;
        forall i, j | 0 <= i < j < |r|
          ensures key(r[i]) <= key(r[j])
        {
          if i == 0 {
            assert r[j] == rest[j - 1];
            assert r[j] in s[1..];
          }
        }
      }
    }
  }

  /** Inserts `x` in front of the first element whose key is not smaller: ties keep `x` first. */
  function InsertSorted<T>(x: T, s: seq<T>, key: T -> int): (r: seq<T>)
    requires SortedBy(s, key)
    ensures |r| == |s| + 1
    ensures multiset(r) == multiset(s) + multiset{x}
    ensures SortedBy(r, key)
  {
    if |s| == 0 || key(x) <= key(s[0]) then
      [x] + s
    else
      var rest := InsertSorted(x, s[1..], key);
      assert s == [s[0]] + s[1..];
      ConsSorted(s[0], rest, s[1..], x, key);
      [s[0]] + rest
  }

  /**
   Putting `h` in front of a sorted permutation of `t + [x]` keeps it sorted when
   `h` is below every element of `t` and below `x`.
   */
  lemma ConsSorted<T>(h: T, rest: seq<T>, t: seq<T>, x: T, key: T -> int)
    requires SortedBy(rest, key)
    requires multiset(rest) == multiset(t) + multiset{x}
    requires forall i :: 0 <= i < |t| ==> key(h) <= key(t[i])
    requires key(h) < key(x)
    ensures SortedBy([h] + rest, key)
  {
    forall i | 0 <= i < |rest|
      ensures key(h) <= key(rest[i])
    {
      assert rest[i] in multiset(rest);
      if rest[i] != x {
        assert rest[i] in multiset(t);
        var j :| 0 <= j < |t| && t[j] == rest[i];
      }
    }
    var r := [h] + rest;
    forall i, j | 0 <= i < j < |r|
      ensures key(r[i]) <= key(r[j])
    {
      if i > 0 {
        assert r[i] == rest[i - 1] && r[j] == rest[j - 1];
      } else {
        assert r[j] == rest[j - 1];
      }
    }
  }

  /**
   Stable sort by an integer key, the behaviour of `s.sort((a, b) => key(a) - key(b))`:
   insertion of the head into the sorted tail.
   */
  function SortBy<T>(s: seq<T>, key: T -> int): (r: seq<T>)
    ensures |r| == |s|
    ensures multiset(r) == multiset(s)
    ensures SortedBy(r, key)
  {
    if |s| == 0 then []
    else
      assert s == [s[0]] + s[1..];
      InsertSorted(s[0], SortBy(s[1..], key), key)
  }

  /** The elements whose key is `k`, in order: the tie class a stable sort must not reorder. */
  function TieClass<T>(s: seq<T>, key: T -> int, k: int): seq<T> {
    if |s| == 0 then []
    else (if key(s[0]) == k then [s[0]] else []) + TieClass(s[1..], key, k)
  }

  lemma {:induction false} InsertSortedTieClass<T>(x: T, s: seq<T>, key: T -> int, k: int)
    requires SortedBy(s, key)
    ensures TieClass(InsertSorted(x, s, key), key, k)
         == (if key(x) == k then [x] else []) + TieClass(s, key, k)
  {
    if |s| == 0 || key(x) <= key(s[0]) {
      assert ([x] + s)[1..] == s;
    } else {
      assert SortedBy(s[1..], key);
      var rest := InsertSorted(x, s[1..], key);
      InsertSortedTieClass(x, s[1..], key, k);
      assert ([s[0]] + rest)[1..] == rest;
      var hx: seq<T> := if key(x) == k then [x] else [];
      var h0: seq<T> := if key(s[0]) == k then [s[0]] else [];
      // `x` goes after `s[0]` only when its key is larger, so at most one of them is in the class.
      assert hx == [] || h0 == [];
      calc {
        TieClass(InsertSorted(x, s, key), key, k);
        h0 + TieClass(rest, key, k);
        h0 + (hx + TieClass(s[1..], key, k));
        { assert h0 + hx == hx + h0; }
        hx + (h0 + TieClass(s[1..], key, k));
      }
    }
  }

  /** The sort is stable: elements with equal keys keep their original relative order. */
  lemma {:induction false} SortByStable<T>(s: seq<T>, key: T -> int, k: int)
    ensures TieClass(SortBy(s, key), key, k) == TieClass(s, key, k)
  {
    if |s| > 0 {
      SortByStable(s[1..], key, k);
      InsertSortedTieClass(s[0], SortBy(s[1..], key), key, k);
    }
  }

  /** Sorting an already sorted sequence changes nothing. */
  lemma {:induction false} SortBySorted<T>(s: seq<T>, key: T -> int)
    requires SortedBy(s, key)
    ensures SortBy(s, key) == s
  {
    if |s| > 0 {
      assert SortedBy(s[1..], key);
      SortBySorted(s[1..], key);
      assert s == [s[0]] + s[1..];
    }
  }
}

=== FILE: store.dfy ===
/**
 The server's view of the persistent store: three tables keyed by row id, the
 ownership chain the handlers look up (task -> list -> project -> owner), and the
 "highest position plus one, or zero" rule used when a list or task is created.
 */
module Store {
  import opened Wrappers
  import opened Ids

  datatype ProjectRow = ProjectRow(name: string, userId: UserId)
  datatype ListRow = ListRow(name: string, projectId: Id, position: int)
  datatype TaskRow = TaskRow(name: string, listId: Id, position: int)

  datatype Store = Store(projects: map<Id, ProjectRow>, lists: map<Id, ListRow>, tasks: map<Id, TaskRow>)

  /** A handler's answer: the HTTP status and the store after the request. */
  datatype Reply = Reply(status: int, store: Store)

  /** Every list belongs to a stored project and every task to a stored list (the foreign keys). */
  predicate Consistent(s: Store) {
    && (forall l :: l in s.lists ==> s.lists[l].projectId in s.projects)
    && (forall t :: t in s.tasks ==> s.tasks[t].listId in s.lists)
  }

  /**
   `!name` in a handler: absent (`undefined`/`null`) and the empty string are both
   rejected; any other string is accepted.
   */
  predicate Present(name: Option<string>) {
    name.Some? && name.value != ""
  }

  /**
   The result of reading an owner through a join: no row for the id (`.single()`
   reports an error), a row whose joined parent is missing (the handler then reads a
   field of `null` and throws), or the owner's user id.
   */
  datatype Chain = Missing | Broken | OwnedBy(user: UserId)

  /** `lists.select('id, projects(user_id)').eq('id', listId).single()`. */
  function ListChain(s: Store, listId: Id): (c: Chain)
    ensures c == Missing <==> listId !in s.lists
    ensures c.OwnedBy? <==> listId in s.lists && s.lists[listId].projectId in s.projects
    ensures c.OwnedBy? ==> c.user == s.projects[s.lists[listId].projectId].userId
  {
    if listId !in s.lists then Missing
    else if s.lists[listId].projectId !in s.projects then Broken
    else OwnedBy(s.projects[s.lists[listId].projectId].userId)
  }

  /** `tasks.select('lists(projects(user_id))').eq('id', taskId).single()`. */
  function TaskChain(s: Store, taskId: Id): (c: Chain)
    ensures c == Missing <==> taskId !in s.tasks
    ensures taskId in s.tasks ==> (c.OwnedBy? <==> ListChain(s, s.tasks[taskId].listId).OwnedBy?)
    ensures c.OwnedBy? ==> taskId in s.tasks && c == ListChain(s, s.tasks[taskId].listId)
  {
    if taskId !in s.tasks then Missing
    else match ListChain(s, s.tasks[taskId].listId)
      case Missing => Broken
      case Broken => Broken
      case OwnedBy(u) => OwnedBy(u)
  }

  /** In a consistent store no chain is broken. */
  lemma ConsistentChains(s: Store, listId: Id, taskId: Id)
    requires Consistent(s)
    ensures ListChain(s, listId) != Broken
    ensures TaskChain(s, taskId) != Broken
  {
  }

  // ---------------------------------------------------------------------------
  // Positions

  /** A finite set of integers with an element has a largest element. */
  lemma {:induction false} MaxExists(ps: set<int>)
    requires exists p :: p in ps
    ensures exists m :: m in ps && forall p :: p in ps ==> p <= m
    decreases |ps|
  {
    var x :| x in ps;
    var rest := ps - {x};
    assert forall p :: p in ps ==> p == x || p in rest;
    if exists p :: p in rest {
      MaxExists(rest);
      var m :| m in rest && forall p :: p in rest ==> p <= m;
      if x <= m {
        assert m in ps && forall p :: p in ps ==> p <= m;
      } else {
        assert x in ps && forall p :: p in ps ==> p <= x;
      }
    } else {
      assert x in ps && forall p :: p in ps ==> p <= x;
    }
  }

  /** The largest position: what `.order('position', { ascending: false }).limit(1)` returns. */
  function MaxOf(ps: set<int>): (m: int)
    requires exists p :: p in ps
    ensures m in ps
    ensures forall p :: p in ps ==> p <= m
  {
    MaxExists(ps);
    var m :| m in ps && forall p :: p in ps ==> p <= m;
    m
  }

  /**
   The position of a new child: one more than the highest sibling position, or 0
   when the "no rows" error says there is no sibling.
   */
  function NextPosition(ps: set<int>): (r: int)
    ensures forall p :: p in ps ==> p < r
    ensures (forall p :: p !in ps) ==> r == 0
    ensures (exists p :: p in ps) ==> r - 1 in ps
  {
    if exists p :: p in ps then MaxOf(ps) + 1 else 0
  }

  /**
   Positions of the tasks in list `listId`: the set holds exactly the positions of
   the list's tasks, and it is empty exactly when the list has no task ("no rows").
   */
  function TaskPositions(s: Store, listId: Id): (ps: set<int>)
    ensures forall t :: t in s.tasks && s.tasks[t].listId == listId ==> s.tasks[t].position in ps
    ensures forall p :: p in ps ==> exists t :: t in s.tasks && s.tasks[t].listId == listId && s.tasks[t].position == p
    ensures (forall p :: p !in ps) <==> (forall t :: t in s.tasks ==> s.tasks[t].listId != listId)
  {
    set t | t in s.tasks && s.tasks[t].listId == listId :: s.tasks[t].position
  }

  /**
   Positions of the lists in project `projectId`: the set holds exactly the positions
   of the project's lists, and it is empty exactly when the project has no list.
   */
  function ListPositions(s: Store, projectId: Id): (ps: set<int>)
    ensures forall l :: l in s.lists && s.lists[l].projectId == projectId ==> s.lists[l].position in ps
    ensures forall p :: p in ps ==> exists l :: l in s.lists && s.lists[l].projectId == projectId && s.lists[l].position == p
    ensures (forall p :: p !in ps) <==> (forall l :: l in s.lists ==> s.lists[l].projectId != projectId)
  {
    set l | l in s.lists && s.lists[l].projectId == projectId :: s.lists[l].position
  }
}

=== FILE: tasks.dfy ===
/**
 The task handlers: create a task at the end of a list, move a task (write its list
 and position), delete a task. Each checks ownership through the task's or list's
 project and answers 404 both for "no such row" and for "not yours".
 */
module Tasks {
  import opened Wrappers
  import opened Store
  import opened Ids

  /** The requester owns nothing behind this chain, or there is nothing behind it. */
  predicate Denied(c: Chain, user: UserId) {
    c.Missing? || (c.OwnedBy? && c.user != user)
  }

  /**
   `createTask`: reject a missing name, check that the list's project belongs to the
   requester, then insert the task under the store-chosen id `newId` with position
   one above the list's highest, or 0 for an empty list.
   */
  function CreateTask(s: Store, user: UserId, listId: Id, name: Option<string>, newId: Id): (r: Reply)
    ensures !Present(name) ==> r == Reply(400, s)
    ensures r.status == 201 <==> Present(name) && ListChain(s, listId) == OwnedBy(user) && newId !in s.tasks
    ensures r.status == 404 <==> Present(name) && Denied(ListChain(s, listId), user)
    ensures r.status in {201, 400, 404, 500}
    ensures r.status != 201 ==> r.store == s
    ensures r.status == 201 ==>
              && r.store.projects == s.projects
              && r.store.lists == s.lists
              && r.store.tasks.Keys == s.tasks.Keys + {newId}
              && (forall t :: t in s.tasks ==> r.store.tasks[t] == s.tasks[t])
              && r.store.tasks[newId].name == name.value
              && r.store.tasks[newId].listId == listId
  {
    if !Present(name) then Reply(400, s)
    else match ListChain(s, listId)
      case Missing => Reply(404, s)
      case Broken => Reply(500, s)
      case OwnedBy(owner) =>
        if owner != user then Reply(404, s)
        else if newId in s.tasks then Reply(500, s)
        else
          var row := TaskRow(name.value, listId, NextPosition(TaskPositions(s, listId)));
          Reply(201, s.(tasks := s.tasks[newId := row]))
  }

  /**
   A created task lands after its siblings: its position is above every position in
   its list, it is 0 when the list was empty, and otherwise it is exactly one more
   than some sibling's position (the highest).
   */
  lemma CreateTaskPosition(s: Store, user: UserId, listId: Id, name: Option<string>, newId: Id)
    requires CreateTask(s, user, listId, name, newId).status == 201
    ensures var p := CreateTask(s, user, listId, name, newId).store.tasks[newId].position;
            && (forall t :: t in s.tasks && s.tasks[t].listId == listId ==> s.tasks[t].position < p)
            && ((forall t :: t in s.tasks ==> s.tasks[t].listId != listId) ==> p == 0)
            && ((exists t :: t in s.tasks && s.tasks[t].listId == listId) ==>
                  exists t :: t in s.tasks && s.tasks[t].listId == listId && s.tasks[t].position == p - 1)
  {
  }

  /**
   `updateTaskPosition`: the only ownership check is on the task's current list; the
   destination list is written as given, and the store refuses it only when no such
   list exists (foreign key). Exactly one row changes, and only its list and position.
   */
  function UpdateTaskPosition(s: Store, user: UserId, taskId: Id, listId: Id, position: int): (r: Reply)
    ensures r.status == 200 <==> TaskChain(s, taskId) == OwnedBy(user) && listId in s.lists
    ensures r.status == 404 <==> Denied(TaskChain(s, taskId), user)
    ensures r.status in {200, 404, 500}
    ensures r.status != 200 ==> r.store == s
    ensures r.status == 200 ==>
              && r.store.projects == s.projects
              && r.store.lists == s.lists
              && r.store.tasks.Keys == s.tasks.Keys
              && (forall t :: t in s.tasks && t != taskId ==> r.store.tasks[t] == s.tasks[t])
              && r.store.tasks[taskId] == TaskRow(s.tasks[taskId].name, listId, position)
  {
    match TaskChain(s, taskId)
    case Missing => Reply(404, s)
    case Broken => Reply(500, s)
    case OwnedBy(owner) =>
      if owner != user then Reply(404, s)
      else if listId !in s.lists then Reply(500, s)
      else Reply(200, s.(tasks := s.tasks[taskId := s.tasks[taskId].(listId := listId, position := position)]))
  }

  /** Sending the same move twice leaves the store as sending it once. */
  lemma UpdateTaskPositionIdempotent(s: Store, user: UserId, taskId: Id, listId: Id, position: int)
    ensures var once := UpdateTaskPosition(s, user, taskId, listId, position).store;
            UpdateTaskPosition(once, user, taskId, listId, position).store == once
  {
  }

  /**
   The destination's owner plays no part: a requester who owns the task can move it
   into any existing list, and the task then belongs to whoever owns that list.
   */
  lemma UpdateIgnoresDestinationOwner(s: Store, user: UserId, taskId: Id, listId: Id, position: int)
    requires TaskChain(s, taskId) == OwnedBy(user) && listId in s.lists
    ensures var r := UpdateTaskPosition(s, user, taskId, listId, position);
            && r.status == 200
            && TaskChain(r.store, taskId) == ListChain(s, listId)
  {
  }

  /**
   No re-ranking: a successful move can leave two tasks of one list with the same
   position, when the destination already holds a task at the written position.
   */
  lemma UpdateMayDuplicatePositions(s: Store, user: UserId, taskId: Id, listId: Id, position: int, other: Id)
    requires UpdateTaskPosition(s, user, taskId, listId, position).status == 200
    requires other in s.tasks && other != taskId
    requires s.tasks[other].listId == listId && s.tasks[other].position == position
    ensures var t := UpdateTaskPosition(s, user, taskId, listId, position).store.tasks;
            && t[taskId].listId == t[other].listId
            && t[taskId].position == t[other].position
  {
  }

  /** `deleteTask`: the same ownership check as a move, then exactly that row goes. */
  function DeleteTask(s: Store, user: UserId, taskId: Id): (r: Reply)
    ensures r.status == 204 <==> TaskChain(s, taskId) == OwnedBy(user)
    ensures r.status == 404 <==> Denied(TaskChain(s, taskId), user)
    ensures r.status in {204, 404, 500}
    ensures r.status != 204 ==> r.store == s
    ensures r.status == 204 ==>
              && r.store.projects == s.projects
              && r.store.lists == s.lists
              && r.store.tasks.Keys == s.tasks.Keys - {taskId}
              && (forall t :: t in r.store.tasks ==> r.store.tasks[t] == s.tasks[t])
  {
    match TaskChain(s, taskId)
    case Missing => Reply(404, s)
    case Broken => Reply(500, s)
    case OwnedBy(owner) =>
      if owner != user then Reply(404, s)
      else Reply(204, s.(tasks := s.tasks - {taskId}))
  }

  /** The task handlers keep every foreign key intact, and on such a store never hit a broken join. */
  lemma TaskHandlersKeepConsistency(s: Store, user: UserId, taskId: Id, listId: Id, position: int, name: Option<string>, newId: Id)
    requires Consistent(s)
    ensures Consistent(CreateTask(s, user, listId, name, newId).store)
    ensures Consistent(UpdateTaskPosition(s, user, taskId, listId, position).store)
    ensures Consistent(DeleteTask(s, user, taskId).store)
    ensures DeleteTask(s, user, taskId).status != 500
    ensures UpdateTaskPosition(s, user, taskId, listId, position).status == 500 <==>
              TaskChain(s, taskId) == OwnedBy(user) && listId !in s.lists
  {
  }
}

=== FILE: wrappers.dfy ===
/** Optional values, used for JavaScript's `undefined`/`null` and for lookups that may find nothing. */
module Wrappers {

  datatype Option<+T> = None | Some(value: T)
}
